=== FILE: README.md ===
# Server-Timing middleware, modelled in Dafny

A model of the `server-timing` Express/Connect middleware (`index.js`). For each request it keeps
an ordered list of metric tokens (`name; dur=<ms>[; desc="<text>"]`, the W3C Server Timing
syntax) and a timer of named open timings. Handler code fills these through `res.setMetric`,
`res.startTime` and `res.endTime`. When the response head is written, the middleware emits the
list as a `Server-Timing` header. On the trailer path (HTTP/1.1 with the `trailers` option, or any
HTTP/2 request) it emits the list as a trailer when `res.end` is called. A 204 or 304 response on
the trailer path falls back to a header.

The project is organised as follows:

- `format.dfy` (module `Format`) builds the metric tokens. It also holds a reader for the same
  grammar, which is the partner the tokens are proved against, and the joined header value.
- `timers.dfy` (module `Timers`) holds the per-request timer as a class over a map of open
  timings. The timer's own source is not part of this model, so it is specified from how
  `index.js` uses it.
- `lifecycle.dfy` (module `Lifecycle`) holds the options and the trailer-eligibility test. It also
  describes, as functions on a snapshot value `Exchange`, what each lifecycle event does:
  - the head being written (the on-headers listener);
  - `res.end` through the wrapper;
  - the response's own `end`.
  The lemmas about the whole request lifecycle are stated on these functions.
- `middleware.dfy` (module `Middleware`) holds the response object and the per-request closure
  state as classes, plus the installation step. Each event method is proved to change the state
  exactly as the matching `Lifecycle` function says.
- `scenarios.dfy` (module `Scenarios`) drives whole requests through the classes and checks the
  resulting headers and trailers from the contracts alone. Examples: call order a, b, c; a `db`
  timing followed by `total`; trailer vs header; 204 fallback; HTTP/2 vs HTTP/1.0; disabled
  output; double installation.

Time is a natural number of nanoseconds read from a monotonic clock, passed in as `now`.
Durations are exact reals in milliseconds. JavaScript's number-to-string conversion is a
parameter `render: real -> string` that is fixed at installation.

## Model

| member | source | states |
|---|---|---|
| `Format.MetricToken` | index.js:76-87 | A token is produced exactly when the name is a string and the value a number. For every such name it is the template `name; dur=<rendered value>[; desc="<description>"]`. When neither the name nor the rendered value holds a `;`, reading it back gives that name and rendered value, and the description exactly when that is a non-empty string. |
| `Format.TokenRoundTrip` | index.js:84-85 | Reading a token back gives the name, duration text and description it was built from, whenever neither name nor duration holds a `;`. |
| `Format.JoinConcat` | index.js:58 | Joining with `", "` splits over concatenation: the tokens of the two parts appear in order, separated once. |
| `Format.MergedValueAppends` | index.js:57-58 | The new header value is the existing value, then `", "`, then the joined tokens. A missing or empty-string header contributes nothing, and an array contributes its elements. |
| `Timers.Timer.constructor` | index.js:15 | A new timer has no open timings. |
| `Timers.Timer.Time` | index.js:97 | Opens (or re-opens) exactly the named timing with the current clock reading and description. |
| `Timers.Timer.TimeEnd` | index.js:107-110 | For an open name: returns `{name, value, description}` with value = elapsed ms, and closes only that timing. Otherwise: returns nothing and changes nothing. |
| `Timers.Timer.Keys` | index.js:43 | Lists every open name exactly once, in some order. |
| `Timers.Timer.Clear` | index.js:67 | No timing is open afterwards. |
| `Lifecycle.Eligible` | index.js:26 | The trailer path is taken for HTTP/2 and later regardless of `trailers`, never for HTTP/1.0 (or 0.x), and for HTTP/1.1 and later 1.x exactly when `trailers` is set. |
| `Lifecycle.ClosedTokensAt` | index.js:32 | Force-closing timings in a given order yields one token per timing, the i-th being the `endTime` token of the i-th name. |
| `Lifecycle.ForcedCloseOrderIrrelevant` | index.js:43 | Whichever order `keys()` gives, the force-closed tokens are the same multiset; only their order can differ. |
| `Lifecycle.StepsOnlyAppend` | index.js:14 | Writing the head and calling `res.end` only append to the measurement list. |
| `Lifecycle.HeaderPathFinalisesOnce` | index.js:52-68 | Header path: writing the head appends `total` after every earlier token when `total` is set. It drops open timings without tokens, and writes the merged header only when `enabled`. A later `end` only finishes the response. |
| `Lifecycle.TrailerPathEmitsTrailer` | index.js:35-50 | Trailer path, status other than 204/304: the head sets `Trailer: Server-Timing` and drops `Content-Length`. At `end`: the open timings are closed when `completeTimingsOnEnd` is set, then `total` is appended when `total` is set, then the trailer is set to the joined list (when `enabled`), then the own `end` gets the same arguments. |
| `Lifecycle.TrailerPathEndBeforeHead` | index.js:40-50 | The same outcome when `end` comes before the head has been written. |
| `Lifecycle.NoContentFallsBackToHeader` | index.js:29-34 | Trailer path, status 204/304: the own `end` is restored. Open timings are closed when `completeTimingsOnEnd` is set, `total` is appended when `total` is set, and the header (not a trailer) is written when `enabled` is set. `Content-Length` is left as it was, and a later `end` only finishes the response. |
| `Lifecycle.EndBeforeHeadOnNoContent` | index.js:29-49 | Trailer path, status 204/304, `end` before the head: finalisation runs in the wrapper and again in the fallback. When `total` is set, the list ends with two `total` tokens. |
| `Lifecycle.DisabledAttachesNothing` | index.js:46-59 | With `enabled` off, neither event changes the `Server-Timing` header or the trailers. |
| `Middleware.ServerTiming.constructor` | index.js:14-15 | The measurement list starts empty and the timer is fresh and empty. |
| `Middleware.ServerTiming.SetMetric` | index.js:75-89 | Appends exactly the token for a string name and a numeric value, and keeps every earlier token. Appends nothing otherwise. |
| `Middleware.ServerTiming.StartTime` | index.js:91-99 | A string name opens that timing. Any other name changes nothing. |
| `Middleware.ServerTiming.EndTime` | index.js:101-113 | An open string name: that timing is closed and its token appended. Otherwise nothing changes. |
| `Middleware.ServerTiming.CompleteTimings` | index.js:43 | Closes every open timing in the `keys()` order it returns, appending their tokens in that order. |
| `Middleware.ServerTiming.ProcessTiming` | index.js:61-68 | Appends `total; dur=…; desc="Total Response Time"` when `total` is set, then empties the timer. |
| `Middleware.ServerTiming.SetHeader` | index.js:54-60 | Finalises, then, when `enabled`, sets `Server-Timing` to the merged value. `res.setMetric` stays attached. |
| `Middleware.ServerTiming.OnHeaders` | index.js:28-39 | The on-headers listener: the state afterwards is `Lifecycle.HeadersStep` of the state before. `res.setMetric` stays attached. |
| `Middleware.ServerTiming.CallOriginalEnd` | index.js:49 | The response's own `end`: writes the head if needed, then records the call's arguments. `res.setMetric` stays attached. |
| `Middleware.ServerTiming.End` | index.js:40-50 | `res.end(...args)`: the state afterwards is `Lifecycle.EndStep` of the state before. `res.setMetric` stays attached, so a later installation on the same response still fails. |
| `Scenarios.HeaderOfOneTiming` | index.js:52-60 | Header path with `total` and `enabled` on, no earlier headers and one earlier token: the header written at `end` is that token, `", "`, then `total`. |
| `Middleware.Install` | index.js:13-27 | Installing on a response that already has `res.setMetric` fails with `res.setMetric already exists.` and changes nothing. Otherwise the functions are attached and the start time recorded. On the trailer path, `Transfer-Encoding: chunked` is set and `res.end` is wrapped. |

## Behaviour worth knowing

These are properties of `index.js` as written, which the model follows:

- The `&&`/`||` grouping in the eligibility test sends every HTTP/2 request down the trailer path,
  even with `trailers` off.
- On the header path, timings still open when the head is written produce no token; `clear()`
  drops them.
- On the trailer path, force-closed timings come before `total`.
- The 204/304 fallback does not remove `Content-Length`. Only the branch that announces the trailer
  removes it.
- When `res.end` is called before the head is written on a 204/304 trailer-path response,
  finalisation runs twice: once in the wrapper, once in the fallback. When `total` is set, the
  header then carries two `total` tokens (`Lifecycle.EndBeforeHeadOnNoContent`). This relies on the response's own `end`
  writing the head, which fires the on-headers listener.
- On the trailer path with a status that has a body, the wrapped `res.end` is never restored.
  Every further `res.end(...)` call goes through the wrapper again: it appends another `total`
  (when `total` is set) and, when `enabled` is set, rewrites the trailer before calling the response's own `end`.

## Left out

- timer.js is not part of this model. The timer is specified only by its uses: `time`, `timeEnd`,
  `keys`, `clear`. Its `keys()` order is left open, and each lemma holds for every order.
- The on-headers package is not part of this model. Its listener is the method `OnHeaders`, run
  once when the head is written. The model assumes the listener receives the response, as
  `setHeader(res)` expects. How on-headers passes arguments is not visible.
- `process.hrtime` and the floating-point conversion `diff[0] * 1E3 + diff[1] * 1e-6` are left out.
  Elapsed time is an exact real, and one clock reading `now` serves a whole event. The source reads
  the clock again for each timing it closes and for `total`.
- The rendering of numbers in template literals is the parameter `render`. NaN, infinities and
  rounding are not modelled: numbers are reals.
- `console.warn` output is left out. A rejected argument only leaves the state unchanged.
- Socket effects are left out. Headers are a map keyed by the exact names the source uses, with no
  case folding. Numeric header values are not modelled. Trailers are a recorded map. The
  response's own `end` writes the head if it has not been written, then records its arguments; no
  bytes are modelled.
- Option defaulting with `Object.assign` is left out. `Lifecycle.Defaults` gives the default values,
  but merging partial options is not modelled. The call to `next()` is also left out.
- `endTime` looks `res.setMetric` up when it runs. The model does not model handler code replacing
  `res.setMetric` after installation.
- The wrapped `res.end` has a block body with no `return`, so it returns `undefined` rather than
  what the response's own `end` returns. Return values of `end` are not modelled.
- The forced-close loops look `res.endTime` up when they run. The model does not model handler
  code replacing `res.endTime` after installation.
- Format.MetricToken: the read-back through `ParseToken` is proved only for names and rendered
  durations without `;`. The reader splits at the first `;`, so such a name cannot be read back.
  The token text itself is given for every string name.

=== FILE: format.dfy ===
/**
  The metric tokens of a `Server-Timing` value (W3C Server Timing) as the middleware writes them,
  a reader for the same grammar, and the comma-separated header value they are joined into.
*/
module Format {
  import opened Wrappers

  /** An argument value, told apart only as far as the middleware's `typeof` tests tell them apart.
      `JsOther` stands for `undefined`, `null`, booleans and objects. */
  datatype JsValue = JsString(s: string) | JsNumber(n: real) | JsOther

  const DurPrefix := "; dur="
  const DescPrefix := "; desc=\""
  const Separator := ", "

  /** The description is written only for a string that is not empty. */
  predicate HasDescription(desc: JsValue) {
    desc.JsString? && desc.s != ""
  }

  function DescriptionOf(desc: JsValue): (r: Option<string>) {
    if HasDescription(desc) then Some(desc.s) else None
  }

  /** The token for a metric whose duration is already rendered as text: `name; dur=<dur>`,
      followed by `; desc="<desc>"` when there is a description. */
  function Token(name: string, dur: string, desc: JsValue): (t: string) {
    name + DurPrefix + dur + DescSuffix(desc)
  }

  /** `; desc="<desc>"` when there is a description, nothing otherwise. */
  function DescSuffix(desc: JsValue): (r: string) {
    if HasDescription(desc) then DescPrefix + desc.s + "\"" else ""
  }

  /** What `setMetric(name, value, description)` appends: nothing unless the name is a string and the
      value a number. `render` is the number-to-string conversion of the template literal. */
  function MetricToken(render: real -> string, name: JsValue, value: JsValue, desc: JsValue): (t: Option<string>)
    ensures t.Some? <==> name.JsString? && value.JsNumber?
    ensures t.Some? ==> t.value == Token(name.s, render(value.n), desc)
    ensures t.Some? && ';' !in name.s && ';' !in render(value.n) ==>
      ParseToken(t.value) == Some(Metric(name.s, render(value.n), DescriptionOf(desc)))
  {
    if !name.JsString? || !value.JsNumber? then None
    else
      var dur := render(value.n);
      assert ';' !in name.s && ';' !in dur ==> ParseToken(Token(name.s, dur, desc)) == Some(Metric(name.s, dur, DescriptionOf(desc))) by {
        if ';' !in name.s && ';' !in dur {
          TokenRoundTrip(name.s, dur, desc);
        }
      }
      Some(Token(name.s, dur, desc))
  }

  /** A metric as read back from a token: its name, the text of its duration and its description. */
  datatype Metric = Metric(name: string, dur: string, desc: Option<string>)

  /** The position of the first `c` in `s`. */
  function IndexOf(s: string, c: char): (r: Option<nat>)
    ensures r.None? <==> c !in s
    ensures r.Some? ==> r.value < |s| && s[r.value] == c && c !in s[..r.value]
  {
    if s == [] then None
    else if s[0] == c then Some(0)
    else match IndexOf(s[1..], c)
      case None => None
      case Some(i) =>
        assert s[..i + 1] == [s[0]] + s[1..][..i];
        Some(i + 1)
  }

  /** Reads a token under the grammar `name; dur=<text>[; desc="<text>"]`, splitting at the first
      semicolons; `None` for text outside that grammar. */
  function ParseToken(t: string): (m: Option<Metric>) {
    match IndexOf(t, ';')
    case None => None
    case Some(i) =>
      if DurPrefix <= t[i..] then ParseDuration(t[..i], t[i + |DurPrefix|..]) else None
  }

  /** Reads what follows `name; dur=`: the duration text, then an optional `; desc="<text>"`. */
  function ParseDuration(name: string, after: string): (m: Option<Metric>) {
    match IndexOf(after, ';')
    case None => Some(Metric(name, after, None))
    case Some(j) =>
      var tail := after[j..];
      if |tail| > |DescPrefix| && DescPrefix <= tail && tail[|tail| - 1] == '"' then
        Some(Metric(name, after[..j], Some(tail[|DescPrefix|..|tail| - 1])))
      else None
  }

  lemma IndexOfAfterPrefix(a: string, b: string, c: char)
    requires c !in a && b != [] && b[0] == c
    ensures IndexOf(a + b, c) == Some(|a|)
  {
    assert (a + b)[|a|] == c;
  }

  lemma ParseDurationRoundTrip(name: string, dur: string, desc: JsValue)
    requires ';' !in dur
    ensures ParseDuration(name, dur + DescSuffix(desc)) == Some(Metric(name, dur, DescriptionOf(desc)))
  {
    var tail := DescSuffix(desc);
    if HasDescription(desc) {
      IndexOfAfterPrefix(dur, tail, ';');
      assert (dur + tail)[..|dur|] == dur && (dur + tail)[|dur|..] == tail;
      assert tail[|DescPrefix|..|tail| - 1] == desc.s;
    } else {
      assert dur + tail == dur;
    }
  }

  /** Reading a token back gives the name, duration text and description it was built from, as long as
      neither the name nor the duration text holds a semicolon. */
  lemma TokenRoundTrip(name: string, dur: string, desc: JsValue)
    requires ';' !in name && ';' !in dur
    ensures ParseToken(Token(name, dur, desc)) == Some(Metric(name, dur, DescriptionOf(desc)))
  {
    var after := dur + DescSuffix(desc);
    var rest := DurPrefix + after;
    var t := name + rest;
    assert Token(name, dur, desc) == t;
    IndexOfAfterPrefix(name, rest, ';');
    assert t[..|name|] == name && t[|name|..] == rest;
    assert t[|name| + |DurPrefix|..] == after;
    ParseDurationRoundTrip(name, dur, desc);
  }

  /** `Array.prototype.join(', ')` over strings. */
  function Join(parts: seq<string>): (r: string) {
    if |parts| == 0 then ""
    else if |parts| == 1 then parts[0]
    else parts[0] + Separator + Join(parts[1..])
  }

  /** Joining two non-empty lists is joining each and separating the two results. */
  lemma {:induction false} JoinConcat(a: seq<string>, b: seq<string>)
    requires a != [] && b != []
    ensures Join(a + b) == Join(a) + Separator + Join(b)
  {
    if |a| == 1 {
      assert (a + b)[1..] == b;
    } else {
      assert (a + b)[1..] == a[1..] + b;
      JoinConcat(a[1..], b);
    }
  }

  /** A response header value: one string, or a list of strings set as an array. */
  datatype HeaderValue = Text(s: string) | Many(values: seq<string>)

  /** `getHeader(name)`. Header names are compared exactly. */
  function Lookup(headers: map<string, HeaderValue>, name: string): (r: Option<HeaderValue>) {
    if name in headers then Some(headers[name]) else None
  }

  /** `[].concat(existing || [])`: a missing or empty-string value contributes nothing, a string
      contributes itself and an array its elements. */
  function ExistingValues(existing: Option<HeaderValue>): (r: seq<string>) {
    match existing
    case None => []
    case Some(Text(s)) => if s == "" then [] else [s]
    case Some(Many(vs)) => vs
  }

  /** The value `setHeader` writes: the values already present, then the tokens, joined. */
  function MergedValue(existing: Option<HeaderValue>, tokens: seq<string>): (r: string) {
    Join(ExistingValues(existing) + tokens)
  }

  /** The new tokens are appended after whatever value the header already had, never replacing it. */
  lemma MergedValueAppends(existing: Option<HeaderValue>, tokens: seq<string>)
    ensures existing.None? || existing == Some(Text("")) ==> MergedValue(existing, tokens) == Join(tokens)
    ensures existing.Some? && existing.value.Text? && existing.value.s != "" ==>
      MergedValue(existing, tokens) ==
        if tokens == [] then existing.value.s else existing.value.s + Separator + Join(tokens)
    ensures existing.Some? && existing.value.Many? ==>
      MergedValue(existing, tokens) ==
        if existing.value.values == [] then Join(tokens)
        else if tokens == [] then Join(existing.value.values)
        else Join(existing.value.values) + Separator + Join(tokens)
  {
    var prior := ExistingValues(existing);
    if prior == [] {
      assert prior + tokens == tokens;
    } else if tokens == [] {
      assert prior + tokens == prior;
    } else {
      JoinConcat(prior, tokens);
    }
  }
}

=== FILE: lifecycle.dfy ===
/**
  The emission decision of the middleware, on values: the options, the trailer-eligibility test and
  what each lifecycle event does to a snapshot of the request's timing state and of the response.
  The classes in module Middleware are proved to change their state exactly as these functions say.
*/
module Lifecycle {
  import opened Wrappers
  import opened Format
  import opened Timers

  /** The middleware's options. */
  datatype Options = Options(total: bool, enabled: bool, trailers: bool, completeTimingsOnEnd: bool)

  /** The options when none are given. */
  const Defaults := Options(total := true, enabled := true, trailers := false, completeTimingsOnEnd := true)

  const ServerTimingHeader := "Server-Timing"
  const TrailerHeader := "Trailer"
  const ContentLengthHeader := "Content-Length"
  const TransferEncodingHeader := "Transfer-Encoding"
  const TotalName := "total"
  const TotalDescription := "Total Response Time"

  /** Whether the trailer path is taken, for the request's HTTP version. The condition groups as
      `(trailers && 1.1+) || major >= 2`, so HTTP/2 and later take it even without `trailers`,
      and HTTP/1.0 never does. */
  function Eligible(trailers: bool, major: nat, minor: nat): (r: bool)
    ensures major >= 2 ==> r
    ensures major == 0 ==> !r
    ensures major == 1 ==> (r <==> trailers && minor >= 1)
  {
    (trailers && major == 1 && minor >= 1) || major >= 2
  }

  /** Statuses whose responses carry no body, so no trailer either. */
  predicate NoContent(status: int) {
    status == 204 || status == 304
  }

  /** What `res.end` currently is: the response's own `end`, or the middleware's wrapper around it. */
  datatype EndHandler = PlainEnd | TimingEnd

  /** What is fixed when the middleware is installed on a request: the options, the clock reading at
      that moment, whether the trailer path was taken, and the number-to-string conversion. */
  datatype Setup = Setup(opts: Options, startAt: nat, trailerPath: bool, render: real -> string)

  /** A snapshot of one request: the measurement list, the timer's open timings, and the parts of the
      response the middleware reads or writes (`ended` records the arguments each call of the
      response's own `end` received). */
  datatype Exchange = Exchange(
    measurements: seq<string>,
    open: map<string, OpenTimer>,
    status: int,
    headers: map<string, HeaderValue>,
    trailers: map<string, string>,
    end: EndHandler,
    headSent: bool,
    ended: seq<seq<JsValue>>)

  /** The synthetic `total` token for a given clock reading. */
  function TotalToken(c: Setup, now: nat): (t: string) {
    Token(TotalName, c.render(ElapsedMs(c.startAt, now)), JsString(TotalDescription))
  }

  function TotalTokens(c: Setup, now: nat): (r: seq<string>) {
    if c.opts.total then [TotalToken(c, now)] else []
  }

  /** The token `endTime(name)` appends for an open timing. */
  function TimerToken(c: Setup, open: map<string, OpenTimer>, name: string, now: nat): (t: string)
    requires name in open
  {
    Token(name, c.render(ElapsedMs(open[name].start, now)), open[name].description)
  }

  /** The tokens of closing the open timings one after the other, in `order`. */
  function ClosedTokens(c: Setup, open: map<string, OpenTimer>, order: seq<string>, now: nat): (r: seq<string>)
    requires forall k :: k in order ==> k in open
  {
    if order == [] then []
    else ClosedTokens(c, open, order[..|order| - 1], now) + [TimerToken(c, open, order[|order| - 1], now)]
  }

  /** `timer.keys().forEach(k => res.endTime(k))`, for the order `keys()` gave. */
  function CompleteTimingsStep(c: Setup, x: Exchange, order: seq<string>, now: nat): (r: Exchange)
    requires IsEnumeration(order, x.open.Keys)
  {
    x.(measurements := x.measurements + ClosedTokens(c, x.open, order, now), open := map[])
  }

  /** `processTiming()`. */
  function ProcessTimingStep(c: Setup, x: Exchange, now: nat): (r: Exchange) {
    x.(measurements := x.measurements + TotalTokens(c, now), open := map[])
  }

  /** `setHeader(res)`. */
  function SetHeaderStep(c: Setup, x: Exchange, now: nat): (r: Exchange) {
    var y := ProcessTimingStep(c, x, now);
    if c.opts.enabled then
      y.(headers := y.headers[ServerTimingHeader := Text(MergedValue(Lookup(y.headers, ServerTimingHeader), y.measurements))])
    else y
  }

  /** The head being written: the on-headers listener the middleware registered runs, then the head
      counts as sent. */
  function HeadersStep(c: Setup, x: Exchange, order: seq<string>, now: nat): (r: Exchange)
    requires IsEnumeration(order, x.open.Keys)
  {
    if !c.trailerPath then
      SetHeaderStep(c, x, now).(headSent := true)
    else if NoContent(x.status) then
      var y := x.(end := PlainEnd);
      var z := if c.opts.completeTimingsOnEnd then CompleteTimingsStep(c, y, order, now) else y;
      SetHeaderStep(c, z, now).(headSent := true)
    else
      x.(headers := x.headers[TrailerHeader := Text(ServerTimingHeader)] - {ContentLengthHeader}, headSent := true)
  }

  /** The response's own `end`: it writes the head first if that has not happened yet. */
  function OriginalEndStep(c: Setup, x: Exchange, args: seq<JsValue>, order: seq<string>, now: nat): (r: Exchange)
    requires IsEnumeration(order, x.open.Keys)
  {
    var y := if x.headSent then x else HeadersStep(c, x, order, now);
    y.(ended := y.ended + [args])
  }

  /** A call `res.end(...args)`, through whatever `res.end` is at that moment. */
  function EndStep(c: Setup, x: Exchange, args: seq<JsValue>, order: seq<string>, now: nat): (r: Exchange)
    requires IsEnumeration(order, x.open.Keys)
  {
    match x.end
    case PlainEnd => OriginalEndStep(c, x, args, order, now)
    case TimingEnd =>
      var y := if c.opts.completeTimingsOnEnd then CompleteTimingsStep(c, x, order, now) else x;
      var z := ProcessTimingStep(c, y, now);
      var w := if c.opts.enabled then z.(trailers := z.trailers[ServerTimingHeader := Join(z.measurements)]) else z;
      OriginalEndStep(c, w, args, [], now)
  }

  // ---------------------------------------------------------------------------------------------
  // The tokens of force-closed timings

  lemma {:induction false} ClosedTokensAt(c: Setup, open: map<string, OpenTimer>, order: seq<string>, now: nat)
    requires forall k :: k in order ==> k in open
    ensures |ClosedTokens(c, open, order, now)| == |order|
    ensures forall i :: 0 <= i < |order| ==> ClosedTokens(c, open, order, now)[i] == TimerToken(c, open, order[i], now)
    decreases |order|
  {
    if order != [] {
      var n := |order| - 1;
      var front := order[..n];
      assert forall k :: k in front ==> k in order;
      ClosedTokensAt(c, open, front, now);
      var r := ClosedTokens(c, open, order, now);
      assert r == ClosedTokens(c, open, front, now) + [TimerToken(c, open, order[n], now)];
      forall i | 0 <= i < |order|
        ensures r[i] == TimerToken(c, open, order[i], now)
      {
        if i < n {
          assert order[i] == front[i];
        }
      }
    }
  }

  lemma ClosedTokensConcat(c: Setup, open: map<string, OpenTimer>, a: seq<string>, b: seq<string>, now: nat)
    requires forall k :: k in a ==> k in open
    requires forall k :: k in b ==> k in open
    ensures forall k :: k in a + b ==> k in open
    ensures ClosedTokens(c, open, a + b, now) == ClosedTokens(c, open, a, now) + ClosedTokens(c, open, b, now)
  {
    var ab := a + b;
    assert forall k :: k in ab ==> k in open;
    ClosedTokensAt(c, open, a, now);
    ClosedTokensAt(c, open, b, now);
    ClosedTokensAt(c, open, ab, now);
    var l, r := ClosedTokens(c, open, ab, now), ClosedTokens(c, open, a, now) + ClosedTokens(c, open, b, now);
    forall i | 0 <= i < |ab|
      ensures l[i] == r[i]
    {
      if i < |a| {
        assert ab[i] == a[i];
      } else {
        assert ab[i] == b[i - |a|];
      }
    }
  }

  lemma RemoveAt(s: seq<string>, j: nat)
    requires j < |s|
    ensures multiset(s[..j] + s[j + 1..]) == multiset(s) - multiset{s[j]}
  {
    assert s == s[..j] + [s[j]] + s[j + 1..];
  }

  /** The tokens of a list are those before position `j`, the one at `j`, and those after it. */
  lemma ClosedTokensSplit(c: Setup, open: map<string, OpenTimer>, s: seq<string>, j: nat, now: nat)
    requires j < |s|
    requires forall k :: k in s ==> k in open
    ensures forall k :: k in s[..j] + s[j + 1..] ==> k in open
    ensures ClosedTokens(c, open, s, now)
      == ClosedTokens(c, open, s[..j], now) + [TimerToken(c, open, s[j], now)] + ClosedTokens(c, open, s[j + 1..], now)
  {
    var p, q := s[..j], s[j + 1..];
    assert s == p + [s[j]] + q;
    ClosedTokensConcat(c, open, p + [s[j]], q, now);
    ClosedTokensConcat(c, open, p, [s[j]], now);
    assert ClosedTokens(c, open, [s[j]], now) == [TimerToken(c, open, s[j], now)];
  }

  lemma MultisetInsert(x: seq<string>, t: string, y: seq<string>)
    ensures multiset(x + [t] + y) == multiset(x + y) + multiset{t}
  {
  }

  /** Closing the same timings in a different order yields the same tokens, possibly reordered. */
  lemma {:induction false} ClosedTokensPermuted(c: Setup, open: map<string, OpenTimer>, o1: seq<string>, o2: seq<string>, now: nat)
    requires multiset(o1) == multiset(o2)
    requires forall k :: k in o1 ==> k in open
    ensures forall k :: k in o2 ==> k in open
    ensures multiset(ClosedTokens(c, open, o1, now)) == multiset(ClosedTokens(c, open, o2, now))
    decreases |o1|
  {
    assert forall k :: k in o2 ==> k in multiset(o1);
    if o1 == [] {
      assert |o2| == |multiset(o2)| == 0;
    } else {
      var n := |o1| - 1;
      var last := o1[n];
      assert last in multiset(o2);
      var j :| 0 <= j < |o2| && o2[j] == last;
      RemoveAt(o1, n);
      RemoveAt(o2, j);
      var front, rest := o1[..n] + o1[n + 1..], o2[..j] + o2[j + 1..];
      ClosedTokensSplit(c, open, o1, n, now);
      ClosedTokensSplit(c, open, o2, j, now);
      ClosedTokensConcat(c, open, o1[..n], o1[n + 1..], now);
      ClosedTokensConcat(c, open, o2[..j], o2[j + 1..], now);
      ClosedTokensPermuted(c, open, front, rest, now);
      var t := TimerToken(c, open, last, now);
      MultisetInsert(ClosedTokens(c, open, o1[..n], now), t, ClosedTokens(c, open, o1[n + 1..], now));
      MultisetInsert(ClosedTokens(c, open, o2[..j], now), t, ClosedTokens(c, open, o2[j + 1..], now));
    }
  }

  lemma {:induction false} EnumerationMultiset(order: seq<string>, keys: set<string>)
    requires IsEnumeration(order, keys)
    ensures multiset(order) == multiset(keys)
    decreases |order|
  {
    if order == [] {
      assert keys == {};
    } else {
      var last := order[|order| - 1];
      var front := order[..|order| - 1];
      assert order == front + [last];
      assert last !in front;
      assert IsEnumeration(front, keys - {last});
      EnumerationMultiset(front, keys - {last});
      assert keys == (keys - {last}) + {last};
    }
  }

  /** Which order `keys()` happens to give changes only the order of the force-closed tokens,
      never which tokens they are. */
  lemma ForcedCloseOrderIrrelevant(c: Setup, open: map<string, OpenTimer>, o1: seq<string>, o2: seq<string>, now: nat)
    requires IsEnumeration(o1, open.Keys) && IsEnumeration(o2, open.Keys)
    ensures multiset(ClosedTokens(c, open, o1, now)) == multiset(ClosedTokens(c, open, o2, now))
  {
    EnumerationMultiset(o1, open.Keys);
    EnumerationMultiset(o2, open.Keys);
    ClosedTokensPermuted(c, open, o1, o2, now);
  }

  // ---------------------------------------------------------------------------------------------
  // The response lifecycle

  /** Every event only appends to the measurement list. */
  lemma StepsOnlyAppend(c: Setup, x: Exchange, order: seq<string>, args: seq<JsValue>, now: nat)
    requires IsEnumeration(order, x.open.Keys)
    ensures x.measurements <= HeadersStep(c, x, order, now).measurements
    ensures x.measurements <= EndStep(c, x, args, order, now).measurements
  {
    HeadersStepAppends(c, x, order, now);
    EndStepAppends(c, x, order, args, now);
  }

  lemma PrefixTransitive(a: seq<string>, b: seq<string>, d: seq<string>)
    requires a <= b && b <= d
    ensures a <= d
  {
  }

  lemma SetHeaderStepAppends(c: Setup, x: Exchange, now: nat)
    ensures SetHeaderStep(c, x, now).measurements == x.measurements + TotalTokens(c, now)
    ensures x.measurements <= SetHeaderStep(c, x, now).measurements
  {
  }

  lemma HeadersStepAppends(c: Setup, x: Exchange, order: seq<string>, now: nat)
    requires IsEnumeration(order, x.open.Keys)
    ensures x.measurements <= HeadersStep(c, x, order, now).measurements
  {
    if !c.trailerPath {
      SetHeaderStepAppends(c, x, now);
    } else if NoContent(x.status) {
      var y := x.(end := PlainEnd);
      var z := if c.opts.completeTimingsOnEnd then CompleteTimingsStep(c, y, order, now) else y;
      assert x.measurements <= z.measurements;
      SetHeaderStepAppends(c, z, now);
      PrefixTransitive(x.measurements, z.measurements, SetHeaderStep(c, z, now).measurements);
    }
  }

  lemma OriginalEndStepAppends(c: Setup, x: Exchange, order: seq<string>, args: seq<JsValue>, now: nat)
    requires IsEnumeration(order, x.open.Keys)
    ensures x.measurements <= OriginalEndStep(c, x, args, order, now).measurements
  {
    if !x.headSent {
      HeadersStepAppends(c, x, order, now);
    }
  }

  lemma TimingEndPrepareAppends(c: Setup, x: Exchange, order: seq<string>, now: nat)
    requires IsEnumeration(order, x.open.Keys)
    ensures var y := if c.opts.completeTimingsOnEnd then CompleteTimingsStep(c, x, order, now) else x;
            x.measurements <= ProcessTimingStep(c, y, now).measurements
  {
  }

  lemma EndStepAppends(c: Setup, x: Exchange, order: seq<string>, args: seq<JsValue>, now: nat)
    requires IsEnumeration(order, x.open.Keys)
    ensures x.measurements <= EndStep(c, x, args, order, now).measurements
  {
    if x.end == PlainEnd {
      OriginalEndStepAppends(c, x, order, args, now);
    } else {
      var y := if c.opts.completeTimingsOnEnd then CompleteTimingsStep(c, x, order, now) else x;
      var z := ProcessTimingStep(c, y, now);
      var w := if c.opts.enabled then z.(trailers := z.trailers[ServerTimingHeader := Join(z.measurements)]) else z;
      TimingEndPrepareAppends(c, x, order, now);
      assert w.measurements == z.measurements;
      OriginalEndStepAppends(c, w, [], args, now);
      PrefixTransitive(x.measurements, w.measurements, OriginalEndStep(c, w, args, [], now).measurements);
    }
  }

  /** Header path: writing the head finalises once — `total` is appended, open timings are dropped
      without tokens — and writes the merged header; a later `end` only finishes the response. */
  lemma HeaderPathFinalisesOnce(c: Setup, x: Exchange, order: seq<string>, t1: nat, args: seq<JsValue>, t2: nat)
    requires !c.trailerPath && x.end == PlainEnd && !x.headSent
    requires IsEnumeration(order, x.open.Keys)
    ensures var y := HeadersStep(c, x, order, t1);
      && y.measurements == x.measurements + TotalTokens(c, t1)
      && y.open == map[]
      && y.trailers == x.trailers && y.end == PlainEnd && y.headSent
      && y.headers == (if c.opts.enabled
                       then x.headers[ServerTimingHeader := Text(MergedValue(Lookup(x.headers, ServerTimingHeader), y.measurements))]
                       else x.headers)
      && EndStep(c, y, args, [], t2) == y.(ended := y.ended + [args])
  {
  }

  /** Trailer path, a status with a body: writing the head announces the trailer and drops
      `Content-Length`; `end` then closes the open timings, appends `total` after them, adds the
      trailer and only then calls the response's own `end` with the same arguments. */
  lemma TrailerPathEmitsTrailer(c: Setup, x: Exchange, order: seq<string>, t1: nat, args: seq<JsValue>, t2: nat)
    requires c.trailerPath && x.end == TimingEnd && !x.headSent && !NoContent(x.status)
    requires IsEnumeration(order, x.open.Keys)
    ensures var y := HeadersStep(c, x, order, t1);
      && y.measurements == x.measurements && y.open == x.open && y.trailers == x.trailers
      && y.headers == x.headers[TrailerHeader := Text(ServerTimingHeader)] - {ContentLengthHeader}
      && var z := EndStep(c, y, args, order, t2);
      && z.measurements == x.measurements
           + (if c.opts.completeTimingsOnEnd then ClosedTokens(c, x.open, order, t2) else [])
           + TotalTokens(c, t2)
      && z.open == map[]
      && z.headers == y.headers
      && z.trailers == (if c.opts.enabled then x.trailers[ServerTimingHeader := Join(z.measurements)] else x.trailers)
      && z.end == TimingEnd
      && z.ended == x.ended + [args]
  {
  }

  /** Trailer path, `end` called before the head is written (the head is then written by the
      response's own `end`): the same tokens and trailer, and the trailer announcement. */
  lemma TrailerPathEndBeforeHead(c: Setup, x: Exchange, order: seq<string>, args: seq<JsValue>, now: nat)
    requires c.trailerPath && x.end == TimingEnd && !x.headSent && !NoContent(x.status)
    requires IsEnumeration(order, x.open.Keys)
    ensures var z := EndStep(c, x, args, order, now);
      && z.measurements == x.measurements
           + (if c.opts.completeTimingsOnEnd then ClosedTokens(c, x.open, order, now) else [])
           + TotalTokens(c, now)
      && z.open == map[]
      && z.headers == x.headers[TrailerHeader := Text(ServerTimingHeader)] - {ContentLengthHeader}
      && z.trailers == (if c.opts.enabled then x.trailers[ServerTimingHeader := Join(z.measurements)] else x.trailers)
      && z.headSent
      && z.ended == x.ended + [args]
  {
  }

  /** Trailer path, status 204 or 304: writing the head restores the response's own `end`, closes
      the open timings (when so configured), appends `total` and writes a header instead of a
      trailer (leaving `Content-Length` as it was); a later `end` only finishes the response. */
  lemma NoContentFallsBackToHeader(c: Setup, x: Exchange, order: seq<string>, t1: nat, args: seq<JsValue>, t2: nat)
    requires c.trailerPath && x.end == TimingEnd && !x.headSent && NoContent(x.status)
    requires IsEnumeration(order, x.open.Keys)
    ensures var y := HeadersStep(c, x, order, t1);
      && y.end == PlainEnd
      && y.measurements == x.measurements
           + (if c.opts.completeTimingsOnEnd then ClosedTokens(c, x.open, order, t1) else [])
           + TotalTokens(c, t1)
      && y.open == map[]
      && y.trailers == x.trailers
      && y.headers == (if c.opts.enabled
                       then x.headers[ServerTimingHeader := Text(MergedValue(Lookup(x.headers, ServerTimingHeader), y.measurements))]
                       else x.headers)
      && EndStep(c, y, args, [], t2) == y.(ended := y.ended + [args])
  {
    var w := x.(end := PlainEnd);
    var z := if c.opts.completeTimingsOnEnd then CompleteTimingsStep(c, w, order, t1) else w;
    assert z.measurements == x.measurements + (if c.opts.completeTimingsOnEnd then ClosedTokens(c, x.open, order, t1) else []);
    assert HeadersStep(c, x, order, t1) == SetHeaderStep(c, z, t1).(headSent := true);
  }

  /** Trailer path, status 204 or 304, `end` called before the head is written: the wrapper
      finalises and adds the trailer, then the head written by the response's own `end` runs the
      fallback, which finalises a second time — two `total` tokens reach the header. */
  lemma EndBeforeHeadOnNoContent(c: Setup, x: Exchange, order: seq<string>, args: seq<JsValue>, now: nat)
    requires c.trailerPath && x.end == TimingEnd && !x.headSent && NoContent(x.status)
    requires IsEnumeration(order, x.open.Keys)
    ensures var closed := if c.opts.completeTimingsOnEnd then ClosedTokens(c, x.open, order, now) else [];
      var z := EndStep(c, x, args, order, now);
      && z.measurements == x.measurements + closed + TotalTokens(c, now) + TotalTokens(c, now)
      && z.trailers == (if c.opts.enabled
                        then x.trailers[ServerTimingHeader := Join(x.measurements + closed + TotalTokens(c, now))]
                        else x.trailers)
      && z.headers == (if c.opts.enabled
                       then x.headers[ServerTimingHeader := Text(MergedValue(Lookup(x.headers, ServerTimingHeader), z.measurements))]
                       else x.headers)
      && z.end == PlainEnd
      && z.ended == x.ended + [args]
  {
    var closed := if c.opts.completeTimingsOnEnd then ClosedTokens(c, x.open, order, now) else [];
    var y := if c.opts.completeTimingsOnEnd then CompleteTimingsStep(c, x, order, now) else x;
    assert y.measurements == x.measurements + closed;
  }

  /** With `enabled` off, no event writes a `Server-Timing` header or trailer. */
  lemma DisabledAttachesNothing(c: Setup, x: Exchange, order: seq<string>, args: seq<JsValue>, now: nat)
    requires !c.opts.enabled
    requires IsEnumeration(order, x.open.Keys)
    ensures Lookup(HeadersStep(c, x, order, now).headers, ServerTimingHeader) == Lookup(x.headers, ServerTimingHeader)
    ensures HeadersStep(c, x, order, now).trailers == x.trailers
    ensures Lookup(EndStep(c, x, args, order, now).headers, ServerTimingHeader) == Lookup(x.headers, ServerTimingHeader)
    ensures EndStep(c, x, args, order, now).trailers == x.trailers
  {
    DisabledHeadersStep(c, x, order, now);
    if x.end == TimingEnd {
      var y := if c.opts.completeTimingsOnEnd then CompleteTimingsStep(c, x, order, now) else x;
      var w := ProcessTimingStep(c, y, now);
      assert w.headers == x.headers && w.trailers == x.trailers;
      if !w.headSent {
        DisabledHeadersStep(c, w, [], now);
      }
      assert EndStep(c, x, args, order, now) == OriginalEndStep(c, w, args, [], now);
    }
  }

  lemma DisabledHeadersStep(c: Setup, x: Exchange, order: seq<string>, now: nat)
    requires !c.opts.enabled
    requires IsEnumeration(order, x.open.Keys)
    ensures Lookup(HeadersStep(c, x, order, now).headers, ServerTimingHeader) == Lookup(x.headers, ServerTimingHeader)
    ensures HeadersStep(c, x, order, now).trailers == x.trailers
  {
    if c.trailerPath && !NoContent(x.status) {
      assert ServerTimingHeader != TrailerHeader && ServerTimingHeader != ContentLengthHeader;
    }
  }
}

=== FILE: middleware.dfy ===
/**
  The middleware on the response object: installing the three functions on a response, the
  functions themselves, the on-headers listener and the wrapped `end`. Each event method is proved
  to change the request's state exactly as the matching function of module Lifecycle says.
*/
module Middleware {
  import opened Wrappers
  import opened Format
  import opened Timers
  import opened Lifecycle

  /** The parts of a response the middleware reads or writes. */
  class Response {
    var statusCode: int
    var headers: map<string, HeaderValue>
    var trailers: map<string, string>
    /** Whether `res.setMetric` is present. */
    var hasTimingApi: bool
    /** What `res.end` currently is. */
    var end: EndHandler
    /** Whether the head has been written. */
    var headSent: bool
    /** The arguments of each call of the response's own `end`. */
    var ended: seq<seq<JsValue>>

    /** A response nothing has touched yet. */
    constructor (statusCode: int, headers: map<string, HeaderValue>)
      ensures this.statusCode == statusCode && this.headers == headers
      ensures trailers == map[] && !hasTimingApi && end == PlainEnd && !headSent && ended == []
    {
      this.statusCode := statusCode;
      this.headers := headers;
      trailers := map[];
      hasTimingApi := false;
      end := PlainEnd;
      headSent := false;
      ended := [];
    }
  }

  /** The per-request state the middleware's closures share: the response, the timer, the
      measurement list and what was fixed at installation. */
  class ServerTiming {
    const res: Response
    const timer: Timer
    const setup: Setup
    var measurements: seq<string>

    /** The request's state as a value. */
    function State(): (r: Exchange)
      reads this, res, timer
    {
      Exchange(measurements, timer.open, res.statusCode, res.headers, res.trailers, res.end, res.headSent, res.ended)
    }

    /** `const measurements = []` and `const timer = new Timer()`. */
    constructor (res: Response, setup: Setup)
      ensures this.res == res && this.setup == setup
      ensures fresh(timer) && timer.open == map[] && measurements == []
    {
      this.res := res;
      this.setup := setup;
      timer := new Timer();
      measurements := [];
    }

    /** `res.setMetric(name, value, description)`: appends one token when the name is a string and
        the value a number, and nothing otherwise; earlier tokens stay as they were. */
    method SetMetric(name: JsValue, value: JsValue, description: JsValue)
      modifies this
      ensures name.JsString? && value.JsNumber? ==>
        measurements == old(measurements) + [Token(name.s, setup.render(value.n), description)]
      ensures !(name.JsString? && value.JsNumber?) ==> measurements == old(measurements)
    {
      var t := MetricToken(setup.render, name, value, description);
      if t.Some? {
        measurements := measurements + [t.value];
      }
    }

    /** `res.startTime(name, description)`: opens a timing when the name is a string. */
    method StartTime(name: JsValue, description: JsValue, now: nat)
      modifies timer
      ensures name.JsString? ==> timer.open == old(timer.open)[name.s := OpenTimer(now, description)]
      ensures !name.JsString? ==> timer.open == old(timer.open)
    {
      if !name.JsString? {
        return;
      }
      timer.Time(name.s, description, now);
    }

    /** `res.endTime(name)`: closes an open timing and appends the token `setMetric` builds from
        what the timer reports; does nothing for a name that is not a string or not open. */
    method EndTime(name: JsValue, now: nat)
      modifies this, timer
      ensures name.JsString? && name.s in old(timer.open) ==>
        && measurements == old(measurements) + [TimerToken(setup, old(timer.open), name.s, now)]
        && timer.open == old(timer.open) - {name.s}
      ensures !(name.JsString? && name.s in old(timer.open)) ==>
        measurements == old(measurements) && timer.open == old(timer.open)
    {
      if !name.JsString? {
        return;
      }
      var obj := timer.TimeEnd(name.s, now);
      if obj.None? {
        return;
      }
      SetMetric(JsString(obj.value.name), JsNumber(obj.value.value), obj.value.description);
    }

    /** `timer.keys().forEach((k) => res.endTime(k))`: closes every open timing, in the order
        `keys()` gives, which is returned. */
    method CompleteTimings(now: nat) returns (order: seq<string>)
      modifies this, timer
      ensures IsEnumeration(order, old(timer.open).Keys)
      ensures State() == CompleteTimingsStep(setup, old(State()), order, now)
    {
      order := timer.Keys();
      ghost var open0 := timer.open;
      ghost var ms0 := measurements;
      var i := 0;
      while i < |order|
        invariant 0 <= i <= |order|
        invariant forall k :: k in order ==> k in open0
        invariant measurements == ms0 + ClosedTokens(setup, open0, order[..i], now)
        invariant forall k :: k in timer.open ==> k in open0 && timer.open[k] == open0[k]
        invariant forall j :: 0 <= j < i ==> order[j] !in timer.open
        invariant forall j :: i <= j < |order| ==> order[j] in timer.open
      {
        var k := order[i];
        ghost var ms1 := measurements;
        EndTime(JsString(k), now);
        assert measurements == ms1 + [TimerToken(setup, open0, k, now)];
        assert order[..i + 1][..i] == order[..i];
        i := i + 1;
      }
      assert order[..i] == order;
      assert timer.open.Keys == {};
    }

    /** `processTiming()`: appends `total` when configured, then clears the timer. */
    method ProcessTiming(now: nat)
      modifies this, timer
      ensures State() == ProcessTimingStep(setup, old(State()), now)
    {
      if setup.opts.total {
        measurements := measurements + [TotalToken(setup, now)];
      }
      timer.Clear();
    }

    /** `setHeader(res)`: finalises, then writes the merged header when enabled. */
    method SetHeader(now: nat)
      modifies this, res, timer
      ensures res.hasTimingApi == old(res.hasTimingApi)
      ensures State() == SetHeaderStep(setup, old(State()), now)
    {
      ProcessTiming(now);
      if setup.opts.enabled {
        var existing := Lookup(res.headers, ServerTimingHeader);
        res.headers := res.headers[ServerTimingHeader := Text(MergedValue(existing, measurements))];
      }
    }

    /** The listener registered with on-headers, run once as the head is written. The order of any
        timings it closes is returned. */
    method OnHeaders(now: nat) returns (ghost order: seq<string>)
      requires !res.headSent
      modifies this, res, timer
      ensures res.hasTimingApi == old(res.hasTimingApi)
      ensures IsEnumeration(order, old(timer.open).Keys)
      ensures State() == HeadersStep(setup, old(State()), order, now)
    {
      order := AnyEnumeration(timer.open.Keys);
      if !setup.trailerPath {
        SetHeader(now);
      } else if res.statusCode == 204 || res.statusCode == 304 {
        res.end := PlainEnd;
        if setup.opts.completeTimingsOnEnd {
          order := CompleteTimings(now);
        }
        SetHeader(now);
      } else {
        res.headers := res.headers[TrailerHeader := Text(ServerTimingHeader)];
        res.headers := res.headers - {ContentLengthHeader};
      }
      res.headSent := true;
    }

    /** The response's own `end`: writes the head if it has not been written, then finishes. */
    method CallOriginalEnd(args: seq<JsValue>, now: nat) returns (ghost order: seq<string>)
      modifies this, res, timer
      ensures res.hasTimingApi == old(res.hasTimingApi)
      ensures IsEnumeration(order, old(timer.open).Keys)
      ensures State() == OriginalEndStep(setup, old(State()), args, order, now)
    {
      if !res.headSent {
        order := OnHeaders(now);
      } else {
        order := AnyEnumeration(timer.open.Keys);
      }
      res.ended := res.ended + [args];
    }

    /** `res.end(...args)`, through whatever `res.end` is: the wrapper closes the open timings,
        finalises, adds the trailer and then calls the response's own `end` with the same arguments. */
    method End(args: seq<JsValue>, now: nat) returns (ghost order: seq<string>)
      modifies this, res, timer
      ensures res.hasTimingApi == old(res.hasTimingApi)
      ensures IsEnumeration(order, old(timer.open).Keys)
      ensures State() == EndStep(setup, old(State()), args, order, now)
    {
      if res.end == PlainEnd {
        order := CallOriginalEnd(args, now);
        return;
      }
      order := AnyEnumeration(timer.open.Keys);
      if setup.opts.completeTimingsOnEnd {
        order := CompleteTimings(now);
      }
      ProcessTiming(now);
      if setup.opts.enabled {
        res.trailers := res.trailers[ServerTimingHeader := Join(measurements)];
      }
      ghost var rest := CallOriginalEnd(args, now);
      EnumerationLength(rest, {});
    }
  }

  /** The middleware applied to one request: fails, touching nothing, when `res.setMetric` already
      exists; otherwise attaches the functions, records the start time and chooses the path — on
      the trailer path it asks for chunked encoding and wraps `res.end`. */
  method Install(res: Response, opts: Options, major: nat, minor: nat, now: nat, render: real -> string)
    returns (r: Result<ServerTiming, string>)
    modifies res
    ensures old(res.hasTimingApi) ==> r == Failure("res.setMetric already exists.") && unchanged(res)
    ensures !old(res.hasTimingApi) ==>
      && r.Success? && fresh(r.value) && fresh(r.value.timer)
      && r.value.res == res
      && r.value.setup == Setup(opts, now, Eligible(opts.trailers, major, minor), render)
      && r.value.measurements == [] && r.value.timer.open == map[]
      && res.hasTimingApi
      && res.statusCode == old(res.statusCode) && res.trailers == old(res.trailers)
      && res.headSent == old(res.headSent) && res.ended == old(res.ended)
      && (r.value.setup.trailerPath ==>
            res.headers == old(res.headers)[TransferEncodingHeader := Text("chunked")] && res.end == TimingEnd)
      && (!r.value.setup.trailerPath ==> res.headers == old(res.headers) && res.end == old(res.end))
  {
    if res.hasTimingApi {
      return Failure("res.setMetric already exists.");
    }
    var setup := Setup(opts, now, Eligible(opts.trailers, major, minor), render);
    var st := new ServerTiming(res, setup);
    res.hasTimingApi := true;
    if setup.trailerPath {
      res.headers := res.headers[TransferEncodingHeader := Text("chunked")];
      res.end := TimingEnd;
    }
    r := Success(st);
  }
}

=== FILE: scenarios.dfy ===
/**
  Client scenarios: whole requests driven through the middleware, each checking what the response
  carries afterwards from the contracts alone. `render` stands for the number-to-string conversion
  and the `t` arguments for clock readings.
*/
module Scenarios {
  import opened Wrappers
  import opened Format
  import opened Timers
  import opened Lifecycle
  import opened Middleware

  /** `setMetric("a", 1)`, `startTime("b")`, `endTime("b")`, `setMetric("c", 2)` list a, b, c in call order. */
  method TokensKeepCallOrder(render: real -> string, t0: nat, t1: nat, t2: nat)
  {
    var res := new Response(200, map[]);
    var r := Install(res, Defaults, 1, 1, t0, render);
    var st := r.value;
    assert st.setup.render == render;
    st.SetMetric(JsString("a"), JsNumber(1.0), JsOther);
    st.StartTime(JsString("b"), JsOther, t1);
    assert st.timer.open == map["b" := OpenTimer(t1, JsOther)];
    st.EndTime(JsString("b"), t2);
    st.SetMetric(JsString("c"), JsNumber(2.0), JsOther);
    assert Token("a", render(1.0), JsOther) == "a; dur=" + render(1.0);
    assert Token("b", render(ElapsedMs(t1, t2)), JsOther) == "b; dur=" + render(ElapsedMs(t1, t2));
    assert Token("c", render(2.0), JsOther) == "c; dur=" + render(2.0);
    assert st.measurements == ["a; dur=" + render(1.0), "b; dur=" + render(ElapsedMs(t1, t2)), "c; dur=" + render(2.0)];
  }

  /** Default options over HTTP/1.1: a `db` timing and `total` reach the header, `db` first. */
  method HeaderWithTotal(render: real -> string, t0: nat, t1: nat, t2: nat, t3: nat)
  {
    var res := new Response(200, map[]);
    var r := Install(res, Defaults, 1, 1, t0, render);
    var st := r.value;
    assert !st.setup.trailerPath && st.setup.render == render;
    var total := TotalToken(st.setup, t3);
    assert total == "total; dur=" + render(ElapsedMs(t0, t3)) + "; desc=\"Total Response Time\"";
    st.StartTime(JsString("db"), JsOther, t1);
    assert st.timer.open == map["db" := OpenTimer(t1, JsOther)];
    st.EndTime(JsString("db"), t2);
    var db := "db; dur=" + render(ElapsedMs(t1, t2));
    assert Token("db", render(ElapsedMs(t1, t2)), JsOther) == db by {
      assert DescSuffix(JsOther) == "" && "db" + DurPrefix == "db; dur=";
    }
    assert st.measurements == [db];
    ghost var x0 := st.State();
    assert x0.headers == map[] && x0.end == PlainEnd && !x0.headSent;
    ghost var order := st.End([], t3);
    HeaderOfOneTiming(st.setup, x0, db, order, t3);
    assert res.headers == map[ServerTimingHeader := Text(db + ", " + total)];
    assert res.trailers == map[];
  }

  /** Header path with `total` on and one earlier token: the header written at `end` is that token
      and `total`, separated by a comma. */
  lemma HeaderOfOneTiming(c: Setup, x: Exchange, token: string, order: seq<string>, now: nat)
    requires !c.trailerPath && c.opts.enabled && c.opts.total
    requires x.headers == map[] && x.measurements == [token] && x.end == PlainEnd && !x.headSent
    requires IsEnumeration(order, x.open.Keys)
    ensures EndStep(c, x, [], order, now).headers == map[ServerTimingHeader := Text(token + ", " + TotalToken(c, now))]
  {
    var total := TotalToken(c, now);
    var y := HeadersStep(c, x, order, now);
    HeaderPathFinalisesOnce(c, x, order, now, [], now);
    assert EndStep(c, x, [], order, now) == y.(ended := y.ended + [[]]);
    assert y.measurements == [token, total];
    assert Lookup(x.headers, ServerTimingHeader) == None;
    assert Join([token, total]) == token + Separator + Join([total]) by {
      assert [token, total][1..] == [total];
    }
    assert ExistingValues(None) + [token, total] == [token, total];
  }

  /** Trailers enabled over HTTP/1.1, status 200: the head announces the trailer and the metrics
      arrive as the trailer, not as a header. */
  method TrailerAfterBody(render: real -> string, t0: nat, t1: nat, t2: nat)
  {
    var res := new Response(200, map[ContentLengthHeader := Text("42")]);
    var r := Install(res, Options(true, true, true, true), 1, 1, t0, render);
    var st := r.value;
    assert st.setup.trailerPath && res.end == TimingEnd;
    ghost var x0 := st.State();
    assert x0.open == map[] && x0.measurements == [];
    ghost var o1 := st.OnHeaders(t1);
    EnumerationLength(o1, {});
    ghost var x1 := st.State();
    assert x1 == HeadersStep(st.setup, x0, [], t1);
    assert res.headers == x0.headers[TrailerHeader := Text(ServerTimingHeader)] - {ContentLengthHeader};
    assert ServerTimingHeader !in res.headers;
    ghost var o2 := st.End([], t2);
    EnumerationLength(o2, {});
    TrailerPathEmitsTrailer(st.setup, x0, [], t1, [], t2);
    assert st.measurements == [TotalToken(st.setup, t2)];
    assert ServerTimingHeader !in res.headers;
    assert res.trailers[ServerTimingHeader] == TotalToken(st.setup, t2);
    assert res.ended == [[]];
  }

  /** Trailers enabled over HTTP/1.1, status 204: no trailer; the metrics go into a header, and
      `res.end` is the response's own again. */
  method NoContentUsesHeader(render: real -> string, t0: nat, t1: nat, t2: nat)
  {
    var res := new Response(204, map[]);
    var r := Install(res, Options(true, true, true, true), 1, 1, t0, render);
    var st := r.value;
    assert st.setup.trailerPath && res.end == TimingEnd;
    ghost var x0 := st.State();
    assert x0.open == map[] && x0.measurements == [] && NoContent(x0.status);
    ghost var o1 := st.OnHeaders(t1);
    EnumerationLength(o1, {});
    NoContentFallsBackToHeader(st.setup, x0, [], t1, [], t2);
    assert res.end == PlainEnd;
    assert st.measurements == [TotalToken(st.setup, t1)];
    assert res.headers[ServerTimingHeader] == Text(TotalToken(st.setup, t1));
    ghost var o2 := st.End([], t2);
    assert res.trailers == map[];
  }

  /** HTTP/2 takes the trailer path even with `trailers` off; HTTP/1.0 never does. */
  method VersionDecidesPath(render: real -> string, t0: nat)
  {
    var res2 := new Response(200, map[]);
    var r2 := Install(res2, Defaults, 2, 0, t0, render);
    assert r2.value.setup.trailerPath && res2.end == TimingEnd;
    var res10 := new Response(200, map[]);
    var r10 := Install(res10, Options(true, true, true, true), 1, 0, t0, render);
    assert !r10.value.setup.trailerPath && res10.end == PlainEnd;
  }

  /** With `enabled` off nothing is attached, whatever was measured. */
  method DisabledScenario(render: real -> string, t0: nat, t1: nat)
  {
    var res := new Response(200, map[]);
    var r := Install(res, Options(true, false, false, true), 1, 1, t0, render);
    var st := r.value;
    st.SetMetric(JsString("a"), JsNumber(1.0), JsString("cache"));
    ghost var order := st.End([], t1);
    assert ServerTimingHeader !in res.headers && res.trailers == map[];
  }

  /** Installing again after the head was written and `end` was called still fails: nothing
      removes `res.setMetric`. */
  method InstallAfterFinish(render: real -> string, t0: nat, t1: nat, t2: nat)
  {
    var res := new Response(200, map[]);
    var r1 := Install(res, Defaults, 1, 1, t0, render);
    var st := r1.value;
    ghost var o1 := st.OnHeaders(t1);
    ghost var o2 := st.End([], t2);
    var r2 := Install(res, Defaults, 1, 1, t2, render);
    assert r2 == Failure("res.setMetric already exists.");
  }

  /** Installing twice on one response fails the second time and changes nothing. */
  method InstallTwice(render: real -> string, t0: nat, t1: nat)
  {
    var res := new Response(200, map[]);
    var r1 := Install(res, Defaults, 1, 1, t0, render);
    assert r1.Success?;
    var r2 := Install(res, Defaults, 1, 1, t1, render);
    assert r2 == Failure("res.setMetric already exists.");
  }
}

=== FILE: timers.dfy ===
/**
  The per-request timer that `startTime`/`endTime` delegate to. Its own source (timer.js) is not part of
  this model: it is specified here only by how index.js uses it — `time` opens a named timing,
  `timeEnd` closes it and reports it (or reports nothing), `keys` lists the open names in an order
  nobody relies on, and `clear` forgets everything.
*/
module Timers {
  import opened Wrappers
  import opened Format

  /** An open timing: the monotonic clock reading, in nanoseconds, when it was opened, and the
      description given with it. */
  datatype OpenTimer = OpenTimer(start: nat, description: JsValue)

  /** What `timeEnd` reports for a timing it closes: `{name, value, description}`. */
  datatype Closed = Closed(name: string, value: real, description: JsValue)

  /** Milliseconds between two nanosecond clock readings. */
  function ElapsedMs(start: nat, now: nat): (r: real) {
    (now as real - start as real) / 1000000.0
  }

  /** `order` lists every name of `keys` exactly once. */
  predicate IsEnumeration(order: seq<string>, keys: set<string>) {
    && (forall i, j :: 0 <= i < j < |order| ==> order[i] != order[j])
    && (forall k :: k in order ==> k in keys)
    && (forall k :: k in keys ==> k in order)
  }

  /** Some enumeration of a set of names, for where the model needs one but the source does not list any. */
  ghost function AnyEnumeration(keys: set<string>): (order: seq<string>)
    ensures IsEnumeration(order, keys)
    decreases keys
  {
    if keys == {} then []
    else
      var k :| k in keys;
      AnyEnumeration(keys - {k}) + [k]
  }

  /** An enumeration has exactly as many entries as there are names; in particular the only
      enumeration of no names is the empty list. */
  lemma {:induction false} EnumerationLength(order: seq<string>, keys: set<string>)
    requires IsEnumeration(order, keys)
    ensures |order| == |keys|
    decreases |order|
  {
    if order == [] {
      assert keys == {};
    } else {
      var last := order[|order| - 1];
      var front := order[..|order| - 1];
      assert order == front + [last];
      assert last !in front;
      assert IsEnumeration(front, keys - {last});
      EnumerationLength(front, keys - {last});
    }
  }

  class Timer {
    /** The open timings, by name. */
    var open: map<string, OpenTimer>

    constructor ()
      ensures open == map[]
    {
      open := map[];
    }

    /** `time(name, description)`: opens the timing `name`, re-opening it if it was open. */
    method Time(name: string, description: JsValue, now: nat)
      modifies this
      ensures open == old(open)[name := OpenTimer(now, description)]
    {
      open := open[name := OpenTimer(now, description)];
    }

    /** `timeEnd(name)`: closes an open timing and reports its elapsed milliseconds; reports nothing,
        and changes nothing, for a name that is not open. */
    method TimeEnd(name: string, now: nat) returns (r: Option<Closed>)
      modifies this
      ensures name !in old(open) ==> r == None && open == old(open)
      ensures name in old(open) ==>
        && r == Some(Closed(name, ElapsedMs(old(open)[name].start, now), old(open)[name].description))
        && open == old(open) - {name}
    {
      if name !in open {
        return None;
      }
      var entry := open[name];
      r := Some(Closed(name, ElapsedMs(entry.start, now), entry.description));
      open := open - {name};
    }

    /** `keys()`: every open name once, in an order the model leaves unspecified. */
    method Keys() returns (ks: seq<string>)
      ensures IsEnumeration(ks, open.Keys)
    {
      ks := [];
      var rest := open.Keys;
      while rest != {}
        invariant rest <= open.Keys
        invariant forall i, j :: 0 <= i < j < |ks| ==> ks[i] != ks[j]
        invariant forall k :: k in ks ==> k in open && k !in rest
        invariant forall k :: k in open ==> k in ks || k in rest
        decreases rest
      {
        var k :| k in rest;
        ks := ks + [k];
        rest := rest - {k};
      }
    }

    /** `clear()`: forgets every timing. */
    method Clear()
      modifies this
      ensures open == map[]
    {
      open := map[];
    }
  }
}

=== FILE: wrappers.dfy ===
/** Optional values and results with an error, used for the absent `timeEnd` result and the install error. */
module Wrappers {

  datatype Option<+T> = None | Some(value: T)

  datatype Result<+T, +E> = Success(value: T) | Failure(error: E)
}
